=== FILE: README.md ===
# GhostVault core in Dafny

GhostVault is a browser note locker. A note is encrypted under a passphrase
(PBKDF2 key derivation, AES-GCM encryption, both from Web Crypto). The
resulting `VaultPayload` is kept as JSON in a single `localStorage` slot,
`vaultData`. When "burn after reading" is on, the slot is removed after a
successful decryption.

This project models the deterministic logic around the cryptography:

- `bytes.dfy`, `base64.dfy`, `codec.dfy`: the byte/text codec of
  `client/lib/crypto.ts`. `toBase64` builds a binary string in 32 KB chunks
  and calls `btoa`; `fromBase64` calls `atob` and reads the char codes back.
  - `btoa` is the padded encoding of RFC 4648 section 4.
  - `atob` is the HTML standard's forgiving-base64 decode. It strips ASCII
    whitespace, accepts missing padding and ignores the spare bits of a final
    partial group.
- `passphrase.dfy`: `generatePassphrase` over the 71-character alphabet. The
  random 32-bit words are an input.
- `js.dfy`: the JavaScript semantics the code relies on: values `JSON.parse`
  can return, truthiness, property reads, `String(v)`, and
  `String.prototype.trim`.
- `envelope.dfy`: `VaultPayload`, `deriveKey`, `encryptText` and
  `decryptToText`. The platform's UTF-8 codec, PBKDF2, AES-GCM, JSON and
  number formatting are a record of functions (`Platform`). The model
  assumes only the properties the code relies on, as hypotheses:
  - UTF-8 decoding inverts encoding, except that the decoder drops one
    leading U+FEFF (byte order mark), as a `TextDecoder` created without
    `ignoreBOM` does.
  - AES-GCM decryption under the same key and IV inverts encryption, and
    appends a 16-byte tag.
  - `JSON.parse` inverts `JSON.stringify` on payloads, and rejects `""`.
    A payload's `v` and `ts` are safe integers (at most 2^53 - 1 in
    magnitude), which a JavaScript number holds exactly, so the real JSON
    functions meet this hypothesis.
- `storage.dfy`: `loadVault`, `saveVault`, `clearVault`. The slot is an
  `Option<string>`.
- `vault.dfy`: the vault-slot state machine of `client/pages/Index.tsx`
  (`handleConfirm`, `handleClear`), plus the initial burn flag.
  - The state is the slot, the component's `vault` copy, the note, the
    dialog's `open` flag and `busy`.
  - One call of `handleConfirm` is one transition, and the `alert` it raises
    is part of its result.

The salt, IV, random words and `Date.now()` are parameters.

The model follows the code, including these easily missed behaviours:

- `decryptToText` never looks at `v`, so it has no version gate of its own
  (`Envelope.DecryptReadsOnlyCryptoFields`). The only version check is the
  one in `loadVault`.
- `loadVault` checks `cipher`, `iv` and `salt` for truthiness, not for being
  strings (`Storage.NonStringFieldsAccepted`). A non-string field reaches
  `atob` through `String(v)`.
- A failed encryption is reported to the user by the outer `catch` of
  `handleConfirm`. The alert therefore reads "Invalid passphrase or
  corrupted data." and not "Encryption failed". The dialog stays open,
  because `setOpen(false)` is skipped.
- `generatePassphrase` fails when `getRandomValues` refuses its request. The
  Web Crypto limit is 65536 bytes, which is 16384 words.
- A note that starts with U+FEFF is not blank unless the rest of it is white
  space too, so it is encrypted. On the way back the `TextDecoder` drops that
  mark, so the note U+FEFF "hi" decrypts to "hi" (`Vault.LeadingBomDropped`).
- A missing `salt`, `iv` or `cipher` reaches `atob` as "undefined", nine
  characters, which does not decode (`Base64.UndefinedDoesNotDecode`).

## Model

| member | source | states |
|---|---|---|
| `Bytes.Latin1` | client/lib/crypto.ts:24-25 | The binary string has one code unit per byte, all below 256, so `btoa` accepts it |
| `Bytes.CharCodesOfLatin1` | client/lib/crypto.ts:24-35 | Reading back `charCodeAt` of the string `String.fromCharCode` built gives the original bytes |
| `Base64.Sextets` | client/lib/crypto.ts:28 | Splitting bytes into 6-bit groups gives 4 values per 3 bytes, and 2 or 3 for a tail, never 1 past a full group |
| `Base64.SextetRoundTrip` | client/lib/crypto.ts:28-32 | Reassembling the 6-bit groups of any byte sequence gives back exactly that sequence |
| `Base64.EncodeSextet` | client/lib/crypto.ts:28 | Each 6-bit value maps to a character of the RFC 4648 alphabet |
| `Base64.DecodeEncodeSextet` | client/lib/crypto.ts:28-32 | The alphabet lookup `atob` uses inverts the one `btoa` uses |
| `Base64.ValuesOfChars` | client/lib/crypto.ts:28-32 | Decoding the characters of a sequence of 6-bit values gives the values back |
| `Base64.Encode` | client/lib/crypto.ts:28 | The padded encoding has length 4*ceil(n/3) and uses only alphabet characters and '=' |
| `Base64.Btoa` | client/lib/crypto.ts:28 | `btoa` succeeds exactly on strings whose code units all fit in a byte |
| `Base64.RemoveAsciiWhitespace` | client/lib/crypto.ts:32 | `atob` drops ASCII whitespace, keeps every other character as often as it occurs, and passes input without whitespace unchanged |
| `Base64.RemoveAsciiWhitespaceAppend` | client/lib/crypto.ts:32 | Whitespace removal works piecewise, so the characters kept stay in their order |
| `Base64.ForgivingDecode` | client/lib/crypto.ts:32 | `atob` succeeds exactly when the input, without whitespace and padding, is all alphabet and not 1 mod 4 long |
| `Base64.Atob` | client/lib/crypto.ts:32 | `atob` returns a binary string whenever it succeeds |
| `Base64.OnePastGroupFails` | client/lib/crypto.ts:32 | `atob` rejects whitespace-free text one character past a full group, whatever its characters |
| `Base64.UndefinedDoesNotDecode` | client/lib/crypto.ts:130-134 | `fromBase64` of a missing property throws: "undefined" is nine characters |
| `Base64.EncodeShortVectors` | client/lib/crypto.ts:28 | The RFC 4648 section 10 vectors: "", "f", "fo", "foo" encode to "", "Zg==", "Zm8=", "Zm9v" |
| `Base64.EncodeHighValues` | client/lib/crypto.ts:28 | Bytes fb ff encode to "+/8=": the standard alphabet, not the URL-safe one |
| `Base64.StripPaddingOfEncode` | client/lib/crypto.ts:28-32 | Removing the padding of an encoding leaves the unpadded encoding |
| `Base64.DecodeEncode` | client/lib/crypto.ts:28-32 | Forgiving decode of the padded encoding of any bytes returns those bytes |
| `Base64.AtobBtoa` | client/lib/crypto.ts:28-32 | `atob(btoa(s))` is `s` for every binary string `s` |
| `Codec.EncodeBytes` | client/lib/crypto.ts:17-29 | `toBase64` is `btoa` of the binary string of the bytes |
| `Codec.DecodeBytes` | client/lib/crypto.ts:31-38 | `fromBase64` fails exactly when `atob` throws, and otherwise returns an array as long as `atob`'s result whose i-th element is its i-th char code |
| `Codec.BinaryString` | client/lib/crypto.ts:19-27 | For any positive chunk size, the chunked loops produce one code unit per byte, the i-th equal to `bytes[i]` |
| `Codec.ToBase64` | client/lib/crypto.ts:17-29 | With 32 KB chunks the result is the unchunked encoding, and `fromBase64` of it returns the bytes |
| `Codec.CopyCharCodes` | client/lib/crypto.ts:33-37 | The copy loop fills an array as long as the binary string, element i being `charCodeAt(i)` |
| `Codec.FromBase64` | client/lib/crypto.ts:31-38 | The copy loop computes `DecodeBytes`: same length as `atob`'s output, element i = `charCodeAt(i)` |
| `Codec.DecodeEncodeBytes` | client/lib/crypto.ts:17-38 | `fromBase64(toBase64(b)) == b` for every byte sequence |
| `Passphrase.CharsetSize` | client/lib/crypto.ts:41-42 | The alphabet has 71 characters |
| `Passphrase.CharsetUnambiguous` | client/lib/crypto.ts:41-42 | The alphabet contains none of I, O, l, 0, 1 |
| `Passphrase.GeneratePassphrase` | client/lib/crypto.ts:40-48 | Succeeds exactly when the request fits `getRandomValues`; then exactly `length` characters, character i is `charset[rnd[i] % 71]`, and every character is in the alphabet and not ambiguous |
| `Passphrase.GenerateDefault` | client/lib/crypto.ts:40-48 | With no argument the passphrase has 20 characters |
| `Js.Truthy` | client/lib/crypto.ts:160-162 | The falsy values are exactly `undefined`, `null`, `false`, `0` and `""` |
| `Js.Get` | client/lib/crypto.ts:162 | Reading one of the payload properties (`v`, `salt`, `iv`, `cipher`, `ts`) gives the parsed object's own property, and `undefined` when it is missing or the value is a non-null non-object |
| `Js.DomString` | client/lib/crypto.ts:130-134 | The conversion `atob` applies to its argument: a string is kept, `undefined` and `null` become their names, booleans "true"/"false", numbers their `toString`, objects without an own `toString` property "[object Object]" |
| `Js.TrimStart` | client/pages/Index.tsx:84 | Dropping leading white space leaves a suffix that is empty or starts with a non-space |
| `Js.TrimEnd` | client/pages/Index.tsx:84 | Dropping trailing white space leaves a prefix that is empty or ends with a non-space |
| `Js.TrimEmptyIffBlank` | client/pages/Index.tsx:84 | `note.trim()` is empty exactly when the note is all white space |
| `Envelope.DeriveKey` | client/lib/crypto.ts:50-80 | PBKDF2 over the UTF-8 bytes of the passphrase and the salt, with 250000 iterations of SHA-256, giving a 256-bit key; a failure is `None` |
| `Envelope.FieldBytes` | client/lib/crypto.ts:130-134 | A string property is decoded as it is; a missing property makes `fromBase64` throw |
| `Envelope.EncryptText` | client/lib/crypto.ts:82-123 | Fails only if key derivation or encryption fails, and then always with "Encryption failed". On success the payload has version 1 and timestamp `now`, its salt and IV decode to the 16 and 12 bytes drawn, and its cipher decodes to the AES-GCM output |
| `Envelope.DecryptToText` | client/lib/crypto.ts:125-153 | Every failure is "Invalid passphrase or corrupted data."; success requires salt, IV and cipher to decode, the key to derive and AES-GCM to authenticate, and returns the UTF-8 decoding of the plaintext |
| `Envelope.EncryptWellFormed` | client/lib/crypto.ts:111-117 | An encrypted payload has version 1 and non-empty salt, IV and cipher |
| `Envelope.DecryptReadsOnlyCryptoFields` | client/lib/crypto.ts:129-147 | Two payloads that agree on salt, IV and cipher decrypt identically; `v` and `ts` are never consulted |
| `Envelope.DecryptEncrypt` | client/lib/crypto.ts:82-147 | Decrypting the parsed payload of `encryptText(p, k)` with `k` returns `p`, less a leading U+FEFF, which the `TextDecoder` drops |
| `Storage.IsVaultObject` | client/lib/crypto.ts:162 | Only an object passes, and it has `v` equal to 1 and all of `cipher`, `iv` and `salt` |
| `Storage.LoadVault` | client/lib/crypto.ts:157-168 | Non-null exactly when the slot holds a non-empty string that parses to a truthy value with `v === 1` and truthy `cipher`, `iv` and `salt`; the result is the parsed value |
| `Storage.PayloadObjectValid` | client/lib/crypto.ts:162 | A parsed payload passes the `loadVault` check exactly when it is well formed |
| `Storage.SaveVault` | client/lib/crypto.ts:170-172 | The slot is occupied, by text that `JSON.parse` turns back into the payload's fields |
| `Storage.ClearVault` | client/lib/crypto.ts:174-176 | The slot is empty, and `loadVault()` then returns `null` whatever the parser |
| `Storage.LoadAfterSave` | client/lib/crypto.ts:157-172 | After `saveVault(v)`, `loadVault()` returns `v` if `v` is well formed and `null` otherwise |
| `Storage.LoadAfterClear` | client/lib/crypto.ts:157-176 | After `clearVault()`, `loadVault()` returns `null` |
| `Storage.TimestampIgnored` | client/lib/crypto.ts:162 | Setting `ts` to anything never changes whether `loadVault` accepts |
| `Storage.NonStringFieldsAccepted` | client/lib/crypto.ts:162 | The check is by truthiness: non-string truthy `cipher`, `iv` and `salt` pass |
| `Vault.IsBlank` | client/pages/Index.tsx:84 | `!note.trim()` holds exactly when the note is empty or all white space |
| `Vault.EncryptNote` | client/pages/Index.tsx:83-95 | Blank note: only `busy` is cleared. Alert exactly when a non-blank note fails to encrypt, and then only `busy` changes, so the slot is not written and the dialog stays open. On success the slot and `vault` hold the payload of the untrimmed note, the note shows the banner and the dialog closes |
| `Vault.DecryptNote` | client/pages/Index.tsx:96-121 | The dialog always closes. No valid vault gives "No vault data found."; a loaded vault that fails to decrypt gives "Invalid passphrase or corrupted data.". Every failure keeps slot, `vault` and note. Success exactly when a vault loads and decrypts; the note becomes the plaintext, and slot and `vault` are emptied when `burn` is truthy and kept otherwise |
| `Vault.Confirm` | client/pages/Index.tsx:79-128 | An empty passphrase changes nothing. Otherwise `busy` ends false. Any alert leaves slot, `vault` and note unchanged. The slot changes only by a successful encrypt or a burning decrypt |
| `Vault.Clear` | client/pages/Index.tsx:130-134 | The slot and `vault` become empty from any state; note, dialog and `busy` are unchanged |
| `Vault.InitialBurn` | client/pages/Index.tsx:36-43 | Burn is on when the preference is absent, empty or unparsable; a stored preference that parses becomes `burn` as it is, so a stored falsy value keeps burning off, and nothing else turns it off |
| `Vault.LoadAfterClearing` | client/pages/Index.tsx:130-134 | After `handleClear`, `loadVault()` finds nothing |
| `Vault.EncryptStoresVault` | client/pages/Index.tsx:88-91 | A successful encrypt leaves a slot that `loadVault()` returns as the new payload, sets the banner note and closes the dialog |
| `Vault.EncryptThenDecrypt` | client/pages/Index.tsx:79-128 | Encrypt then decrypt with the same passphrase restores the untrimmed note, less a leading U+FEFF, without alert; the slot is then empty if `burn` is truthy and holds the same payload otherwise |
| `Vault.LeadingBomDropped` | client/pages/Index.tsx:79-121 | The note U+FEFF "hi" is not blank, is encrypted, and decrypts to "hi" |

## Left out

- PBKDF2 and AES-GCM internals and the `crypto.subtle` calls: foreign code. They are uninterpreted members of `Platform`, constrained only by the round-trip hypotheses above.
- Rejection of a wrong passphrase or a tampered ciphertext: this holds only under cryptographic assumptions (AES-GCM authenticity), which are not stated.
- Randomness: `getRandomValues` is an input. The model does not state uniqueness of salt and IV, or uniformity of the passphrase. `word % 71` is slightly biased, because 2^32 is not a multiple of 71.
- Passphrase.GeneratePassphrase: `length` is a natural number. Negative, fractional or non-numeric `length` values are not modelled, because the only caller passes none.
- Details of `TextEncoder`/`TextDecoder` (surrogates, replacement characters): reduced to "decode inverts encode, less one leading byte order mark".
- `JSON.parse`/`JSON.stringify` text formats, and `Number.prototype.toString`: reduced to the parse-inverts-stringify hypothesis and a `numberText` parameter. NaN, the infinities and `-0` are not represented.
- `Date.now()`: a parameter, a safe integer as the clock always returns.
- `localStorage` I/O: reduced to `Option<string>`. Its exceptions (a quota error in `saveVault`, storage disabled) are not modelled. The `storage` event listener, the burn-preference write-back effect, and the effect that clears the passphrase when the dialog closes are also left out.
- React rendering, `toast`, `setTimeout`, the success glow, clipboard, focus handling and console logging: UI effects with no bearing on the slot.
- Async interleaving of overlapping `handleConfirm` calls: each call is modelled as running to completion.
- Js.Get: `null.key` throws a TypeError. The model returns `undefined` there instead, and the contract does not cover `null`. Nothing outside can tell the two apart: `loadVault` tests the parsed value for truthiness first, and in `decryptToText` both the thrown error and the failed decode of "undefined" end in the same message.
- Js.DomString: its contract leaves out arrays. Their `join(",")` conversion is in its body only, because parsed arrays reach `atob` only when a payload field holds one.
- Js.DomString: an object with an own `toString` property makes `String(v)` throw a TypeError, since no parsed value is callable. The model returns "[object Object]" there instead, and the contract does not cover that case. Nothing outside can tell the two apart: `atob` rejects that text, and the `catch` of `decryptToText` reports the same message as for the thrown error.
- `client/pages/NotFound.tsx`: a 404 view with no logic.

=== FILE: base64.dfy ===
/** Base64 as the browser's `btoa` and `atob` apply it: the encoding with
    padding of RFC 4648 section 4, and the "forgiving-base64 decode" of the
    HTML standard, which also accepts unpadded input and ASCII whitespace and
    ignores the leftover bits of a final partial group.

    Both directions are split in two layers: bytes to and from 6-bit values
    (pure arithmetic), and 6-bit values to and from alphabet characters. */
module Base64 {
  import opened Wrappers
  import opened Bytes

  /** A 6-bit value, the unit one base64 character carries. */
  type sextet = v: int | 0 <= v < 64

  // ---------------------------------------------------------------------
  // Bytes and 6-bit values

  /** Number of 6-bit values (= characters before padding) that encode `n`
      bytes: four per full 3-byte group, two or three for a final partial
      group. */
  function UnpaddedLength(n: nat): (k: nat)
  {
    4 * (n / 3) + (if n % 3 == 0 then 0 else n % 3 + 1)
  }

  /** Adding less than four to a multiple of four leaves that remainder. */
  lemma ModFour(q: nat, k: nat)
    requires k < 4
    ensures (4 * q + k) % 4 == k
  {
  }

  /** An unpadded encoding is never one character past a full group. */
  lemma UnpaddedLengthMod4(n: nat)
    ensures UnpaddedLength(n) % 4 != 1
  {
    var q, k := n / 3, if n % 3 == 0 then 0 else n % 3 + 1;
    assert UnpaddedLength(n) == 4 * q + k;
    ModFour(q, k);
  }

  /** The 6-bit values of `b`, most significant bits first; a final partial
      group is filled with zero bits up to a 6-bit boundary. */
  function Sextets(b: seq<byte>): (xs: seq<sextet>)
    ensures |xs| == UnpaddedLength(|b|) && |xs| % 4 != 1
    decreases |b|
  {
    UnpaddedLengthMod4(|b|);
    if |b| == 0 then []
    else if |b| == 1 then [b[0] / 4, b[0] % 4 * 16]
    else if |b| == 2 then [b[0] / 4, b[0] % 4 * 16 + b[1] / 16, b[1] % 16 * 4]
    else Quad(b[0], b[1], b[2]) + Sextets(b[3..])
  }

  /** The four 6-bit values of a full group of three bytes. */
  function Quad(b0: byte, b1: byte, b2: byte): (xs: seq<sextet>)
  {
    [b0 / 4, b0 % 4 * 16 + b1 / 16, b1 % 16 * 4 + b2 / 64, b2 % 64]
  }

  /** The bytes carried by a sequence of 6-bit values; a final group of two
      or three values yields one or two bytes and its spare low bits are
      dropped. */
  function SextetBytes(xs: seq<sextet>): (b: seq<byte>)
    requires |xs| % 4 != 1
    decreases |xs|
  {
    if |xs| == 0 then []
    else
      var c0: int, c1: int := xs[0], xs[1];
      var c2: int := if |xs| >= 3 then xs[2] else 0;
      if |xs| == 2 then [c0 * 4 + c1 / 16]
      else if |xs| == 3 then [c0 * 4 + c1 / 16, c1 % 16 * 16 + c2 / 4]
      else [c0 * 4 + c1 / 16, c1 % 16 * 16 + c2 / 4, c2 % 4 * 64 + xs[3]]
           + SextetBytes(xs[4..])
  }

  /** The arithmetic of one group: the three bytes are recovered from the
      four 6-bit values they are split into. */
  lemma GroupArithmetic(b0: byte, b1: byte, b2: byte)
    ensures b0 / 4 * 4 + (b0 % 4 * 16 + b1 / 16) / 16 == b0
    ensures (b0 % 4 * 16 + b1 / 16) % 16 * 16 + (b1 % 16 * 4 + b2 / 64) / 4 == b1
    ensures (b1 % 16 * 4 + b2 / 64) % 4 * 64 + b2 % 64 == b2
  {
  }

  lemma OneByteValues(b0: byte)
    ensures SextetBytes([b0 / 4, b0 % 4 * 16]) == [b0]
  {
    GroupArithmetic(b0, 0, 0);
  }

  lemma TwoByteValues(b0: byte, b1: byte)
    ensures SextetBytes([b0 / 4, b0 % 4 * 16 + b1 / 16, b1 % 16 * 4]) == [b0, b1]
  {
    GroupArithmetic(b0, b1, 0);
  }

  lemma ThreeByteValues(b0: byte, b1: byte, b2: byte)
    ensures SextetBytes(Quad(b0, b1, b2)) == [b0, b1, b2]
  {
    var xs := Quad(b0, b1, b2);
    GroupArithmetic(b0, b1, b2);
    assert xs[4..] == [];
  }

  /** A final group of one byte survives the split into 6-bit values. */
  lemma OneByteGroup(b: seq<byte>)
    requires |b| == 1
    ensures SextetBytes(Sextets(b)) == b
  {
    var b0: byte := b[0];
    assert Sextets(b) == [b0 / 4, b0 % 4 * 16];
    OneByteValues(b0);
    assert [b0] == b;
  }

  /** A final group of two bytes survives the split into 6-bit values. */
  lemma TwoByteGroup(b: seq<byte>)
    requires |b| == 2
    ensures SextetBytes(Sextets(b)) == b
  {
    var b0: byte, b1: byte := b[0], b[1];
    assert Sextets(b) == [b0 / 4, b0 % 4 * 16 + b1 / 16, b1 % 16 * 4];
    TwoByteValues(b0, b1);
    assert [b0, b1] == b;
  }

  lemma SextetsOfThree(b: seq<byte>)
    requires |b| == 3
    ensures Sextets(b) == Quad(b[0], b[1], b[2])
  {
    assert Sextets(b[3..]) == [];
  }

  /** A full group of three bytes survives the split into 6-bit values. */
  lemma ThreeByteGroup(b: seq<byte>)
    requires |b| == 3
    ensures SextetBytes(Sextets(b)) == b
  {
    var b0: byte, b1: byte, b2: byte := b[0], b[1], b[2];
    SextetsOfThree(b);
    ThreeByteValues(b0, b1, b2);
    assert [b0, b1, b2] == b;
  }

  /** The 6-bit values of `b` are those of its first group followed by
      those of the rest. */
  lemma SextetsSplit(b: seq<byte>)
    requires |b| > 3
    ensures Sextets(b) == Sextets(b[..3]) + Sextets(b[3..])
  {
    var g := b[..3];
    SextetsOfThree(g);
    assert g[0] == b[0] && g[1] == b[1] && g[2] == b[2];
  }

  /** Joining 6-bit values back into bytes works group by group. */
  lemma SextetBytesSplit(xs: seq<sextet>)
    requires |xs| > 4 && |xs| % 4 != 1
    ensures SextetBytes(xs) == SextetBytes(xs[..4]) + SextetBytes(xs[4..])
  {
    var g := xs[..4];
    assert g[4..] == [];
    assert g[0] == xs[0] && g[1] == xs[1] && g[2] == xs[2] && g[3] == xs[3];
  }

  /** Joining the 6-bit values of `b` back into bytes gives `b`. */
  lemma {:induction false} SextetRoundTrip(b: seq<byte>)
    ensures SextetBytes(Sextets(b)) == b
    decreases |b|
  {
    if |b| == 0 {
    } else if |b| == 1 {
      OneByteGroup(b);
    } else if |b| == 2 {
      TwoByteGroup(b);
    } else if |b| == 3 {
      ThreeByteGroup(b);
    } else {
      var xs, head, tail := Sextets(b), Sextets(b[..3]), Sextets(b[3..]);
      SextetsSplit(b);
      assert xs[..4] == head && xs[4..] == tail;
      SextetBytesSplit(xs);
      ThreeByteGroup(b[..3]);
      SextetRoundTrip(b[3..]);
      assert b == b[..3] + b[3..];
    }
  }

  // ---------------------------------------------------------------------
  // 6-bit values and alphabet characters

  /** Characters of the alphabet of RFC 4648 section 4, Table 1. */
  predicate IsAlphabetChar(c: char)
  {
    ('A' <= c <= 'Z') || ('a' <= c <= 'z') || ('0' <= c <= '9') || c == '+' || c == '/'
  }

  predicate AllAlphabet(s: string)
  {
    forall i :: 0 <= i < |s| ==> IsAlphabetChar(s[i])
  }

  /** The character of Table 1 that encodes `v`. */
  function EncodeSextet(v: sextet): (c: char)
    ensures IsAlphabetChar(c)
  {
    if v < 26 then ('A' as int + v) as char
    else if v < 52 then ('a' as int + (v - 26)) as char
    else if v < 62 then ('0' as int + (v - 52)) as char
    else if v == 62 then '+'
    else '/'
  }

  /** The 6-bit value an alphabet character stands for. */
  function DecodeSextet(c: char): (v: sextet)
    requires IsAlphabetChar(c)
  {
    if 'A' <= c <= 'Z' then c as int - 'A' as int
    else if 'a' <= c <= 'z' then c as int - 'a' as int + 26
    else if '0' <= c <= '9' then c as int - '0' as int + 52
    else if c == '+' then 62
    else 63
  }

  /** `DecodeSextet` undoes `EncodeSextet`. */
  lemma DecodeEncodeSextet(v: sextet)
    ensures DecodeSextet(EncodeSextet(v)) == v
  {
  }

  /** Each value replaced by its character. */
  function Chars(xs: seq<sextet>): (s: string)
    ensures |s| == |xs| && AllAlphabet(s)
  {
    seq(|xs|, i requires 0 <= i < |xs| => EncodeSextet(xs[i]))
  }

  /** Each character replaced by its value. */
  function Values(s: string): (xs: seq<sextet>)
    requires AllAlphabet(s)
    ensures |xs| == |s|
  {
    seq(|s|, i requires 0 <= i < |s| => DecodeSextet(s[i]))
  }

  lemma ValuesOfChars(xs: seq<sextet>)
    ensures Values(Chars(xs)) == xs
  {
    forall i | 0 <= i < |xs|
      ensures Values(Chars(xs))[i] == xs[i]
    {
      DecodeEncodeSextet(xs[i]);
    }
  }

  // ---------------------------------------------------------------------
  // Encoding (btoa)

  /** The encoding of `b` without its trailing `=` characters. */
  function EncodeUnpadded(b: seq<byte>): (s: string)
    ensures |s| == UnpaddedLength(|b|) && |s| % 4 != 1
    ensures AllAlphabet(s)
  {
    Chars(Sextets(b))
  }

  /** The `=` characters that complete the final quantum of `n` bytes. */
  function Padding(n: nat): (pad: string)
  {
    if n % 3 == 1 then "==" else if n % 3 == 2 then "=" else ""
  }

  /** Base64 with padding, RFC 4648 section 4: every four characters carry
      three bytes and the output length is a multiple of four. */
  function Encode(b: seq<byte>): (s: string)
    ensures |s| == 4 * ((|b| + 2) / 3)
    ensures forall i :: 0 <= i < |s| ==> IsAlphabetChar(s[i]) || s[i] == '='
  {
    EncodeUnpadded(b) + Padding(|b|)
  }

  /** `btoa`: throws (`None`) when a code unit does not fit in a byte. */
  function Btoa(s: string): (r: Option<string>)
    ensures r.Some? <==> IsBinaryString(s)
  {
    if IsBinaryString(s) then Some(Encode(CharCodes(s))) else None
  }

  // ---------------------------------------------------------------------
  // Decoding (atob)

  /** Decodes unpadded alphabet text. */
  function DecodeUnpadded(s: string): (b: seq<byte>)
    requires AllAlphabet(s)
    requires |s| % 4 != 1
  {
    SextetBytes(Values(s))
  }

  /** TAB, LF, FF, CR and SPACE. */
  predicate IsAsciiWhitespace(c: char)
  {
    c as int == 0x09 || c as int == 0x0A || c as int == 0x0C || c as int == 0x0D || c as int == 0x20
  }

  /** `s` without its ASCII whitespace: no whitespace is left, every other
      character is kept as often as it occurs, and text without whitespace
      is returned as it is. */
  function RemoveAsciiWhitespace(s: string): (r: string)
    ensures |r| <= |s|
    ensures forall i :: 0 <= i < |r| ==> !IsAsciiWhitespace(r[i])
    ensures forall c :: !IsAsciiWhitespace(c) ==> multiset(r)[c] == multiset(s)[c]
    ensures (forall i :: 0 <= i < |s| ==> !IsAsciiWhitespace(s[i])) ==> r == s
    decreases |s|
  {
    if |s| == 0 then ""
    else
      assert s == [s[0]] + s[1..];
      if IsAsciiWhitespace(s[0]) then RemoveAsciiWhitespace(s[1..])
      else [s[0]] + RemoveAsciiWhitespace(s[1..])
  }

  /** Whitespace removal works piecewise, so the characters it keeps stay in
      their order. */
  lemma {:induction false} RemoveAsciiWhitespaceAppend(a: string, b: string)
    ensures RemoveAsciiWhitespace(a + b) == RemoveAsciiWhitespace(a) + RemoveAsciiWhitespace(b)
    decreases |a|
  {
    if |a| == 0 {
      assert a + b == b;
    } else {
      assert (a + b)[1..] == a[1..] + b;
      RemoveAsciiWhitespaceAppend(a[1..], b);
    }
  }

  /** When the length is a multiple of four, one or two trailing `=` are
      removed. */
  function StripPadding(d: string): (r: string)
  {
    if |d| % 4 != 0 then d
    else if |d| >= 2 && d[|d| - 1] == '=' && d[|d| - 2] == '=' then d[..|d| - 2]
    else if |d| >= 1 && d[|d| - 1] == '=' then d[..|d| - 1]
    else d
  }

  /** The forgiving-base64 decode of the HTML standard; `None` is the
      failure on which `atob` throws. It fails exactly when, after removing
      whitespace and padding, the text is one character past a full group
      or holds a character outside the alphabet. */
  function ForgivingDecode(s: string): (r: Option<seq<byte>>)
    ensures var d := StripPadding(RemoveAsciiWhitespace(s));
      r.Some? <==> AllAlphabet(d) && |d| % 4 != 1
  {
    var d := StripPadding(RemoveAsciiWhitespace(s));
    if |d| % 4 == 1 then None
    else if !AllAlphabet(d) then None
    else Some(DecodeUnpadded(d))
  }

  /** `atob`: throws (`None`) when the forgiving decode fails; otherwise the
      decoded bytes as a binary string. */
  function Atob(s: string): (r: Option<string>)
    ensures r.Some? ==> IsBinaryString(r.value)
  {
    match ForgivingDecode(s)
    case None => None
    case Some(b) => Some(Latin1(b))
  }

  /** Text without whitespace one character past a full group is rejected,
      whatever its characters. */
  lemma OnePastGroupFails(s: string)
    requires forall i :: 0 <= i < |s| ==> !IsAsciiWhitespace(s[i])
    requires |s| % 4 == 1
    ensures Atob(s) == None
  {
    assert StripPadding(RemoveAsciiWhitespace(s)) == s;
  }

  /** "undefined", the text a missing property becomes, is nine characters,
      one past two full groups, so `atob` rejects it. */
  lemma UndefinedDoesNotDecode()
    ensures Atob("undefined") == None
  {
    var u := "undefined";
    assert forall i :: 0 <= i < |u| ==> !IsAsciiWhitespace(u[i]);
    OnePastGroupFails(u);
  }

  // ---------------------------------------------------------------------
  // Test vectors

  /** The test vectors of section 10 of RFC 4648 up to one full group. */
  lemma EncodeShortVectors()
    ensures Encode([]) == ""
    ensures Encode([0x66]) == "Zg=="
    ensures Encode([0x66, 0x6f]) == "Zm8="
    ensures Encode([0x66, 0x6f, 0x6f]) == "Zm9v"
  {
  }

  /** The last two alphabet characters, `+` and `/`, are those of section 4
      of RFC 4648, not the URL-safe ones. */
  lemma EncodeHighValues()
    ensures Encode([0xfb, 0xff]) == "+/8="
  {
  }

  // ---------------------------------------------------------------------
  // Round trip

  /** Decoding undoes the unpadded encoding. */
  lemma DecodeEncodeUnpadded(b: seq<byte>)
    ensures DecodeUnpadded(EncodeUnpadded(b)) == b
  {
    ValuesOfChars(Sextets(b));
    SextetRoundTrip(b);
  }

  /** The padding completes the last group: unpadded length plus padding is
      a multiple of four, and padding follows at least two characters. */
  lemma PaddedLength(n: nat)
    ensures (UnpaddedLength(n) + |Padding(n)|) % 4 == 0
    ensures |Padding(n)| > 0 ==> UnpaddedLength(n) >= 2
  {
    var q := n / 3;
    if n % 3 == 0 {
      assert UnpaddedLength(n) + |Padding(n)| == 4 * q;
      ModFour(q, 0);
    } else {
      assert UnpaddedLength(n) + |Padding(n)| == 4 * (q + 1);
      ModFour(q + 1, 0);
    }
  }

  /** Stripping removes exactly the padding appended to alphabet text that
      completes a group. */
  lemma StripAppendedPadding(u: string, pad: string)
    requires AllAlphabet(u)
    requires pad == "" || pad == "=" || pad == "=="
    requires (|u| + |pad|) % 4 == 0
    requires |pad| > 0 ==> |u| >= 2
    ensures StripPadding(u + pad) == u
  {
    var s := u + pad;
    if |pad| == 0 {
      assert s == u;
      if |u| > 0 {
        assert IsAlphabetChar(u[|u| - 1]);
      }
    } else if |pad| == 2 {
      assert s[|s| - 1] == '=' && s[|s| - 2] == '=';
      assert s[..|s| - 2] == u;
    } else {
      assert s[|s| - 1] == '=';
      assert s[|s| - 2] == u[|u| - 1];
      assert IsAlphabetChar(u[|u| - 1]);
      assert s[..|s| - 1] == u;
    }
  }

  /** Removing the padding of an encoding leaves its unpadded form. */
  lemma StripPaddingOfEncode(b: seq<byte>)
    ensures StripPadding(Encode(b)) == EncodeUnpadded(b)
  {
    PaddedLength(|b|);
    StripAppendedPadding(EncodeUnpadded(b), Padding(|b|));
  }

  /** The forgiving decoder accepts every padded encoding and returns the
      encoded bytes. */
  lemma DecodeEncode(b: seq<byte>)
    ensures ForgivingDecode(Encode(b)) == Some(b)
  {
    var s := Encode(b);
    forall i | 0 <= i < |s|
      ensures !IsAsciiWhitespace(s[i])
    {
      assert IsAlphabetChar(s[i]) || s[i] == '=';
    }
    assert RemoveAsciiWhitespace(s) == s;
    StripPaddingOfEncode(b);
    DecodeEncodeUnpadded(b);
  }

  /** `atob` inverts `btoa` on every binary string. */
  lemma AtobBtoa(s: string)
    requires IsBinaryString(s)
    ensures Btoa(s).Some?
    ensures Atob(Btoa(s).value) == Some(s)
  {
    DecodeEncode(CharCodes(s));
    Latin1OfCharCodes(s);
  }
}

=== FILE: bytes.dfy ===
/** Bytes, 32-bit words and JavaScript "binary strings" (one UTF-16 code
    unit per byte, as built by `String.fromCharCode` and read back by
    `charCodeAt`). */
module Bytes {

  /** One element of a `Uint8Array`. */
  type byte = b: int | 0 <= b < 0x100

  /** One element of a `Uint32Array`. */
  type uint32 = w: int | 0 <= w < 0x1_0000_0000

  /** Every code unit of `s` fits in a byte, which is what `btoa` demands
      and what `atob` produces. */
  predicate IsBinaryString(s: string)
  {
    forall i :: 0 <= i < |s| ==> s[i] as int < 0x100
  }

  /** The binary string whose i-th code unit is `bytes[i]`. */
  function Latin1(bytes: seq<byte>): (s: string)
    ensures |s| == |bytes|
    ensures IsBinaryString(s)
  {
    seq(|bytes|, i requires 0 <= i < |bytes| => bytes[i] as char)
  }

  /** The code units of a binary string, as bytes. */
  function CharCodes(s: string): (bytes: seq<byte>)
    requires IsBinaryString(s)
    ensures |bytes| == |s|
  {
    seq(|s|, i requires 0 <= i < |s| => s[i] as int)
  }

  /** Reading back the code units of a binary string gives the bytes it was
      built from. */
  lemma CharCodesOfLatin1(bytes: seq<byte>)
    ensures CharCodes(Latin1(bytes)) == bytes
  {
  }

  /** A binary string is determined by its code units. */
  lemma Latin1OfCharCodes(s: string)
    requires IsBinaryString(s)
    ensures Latin1(CharCodes(s)) == s
  {
  }
}

=== FILE: codec.dfy ===
/** The byte/text helpers of client/lib/crypto.ts: `toBase64` builds a
    binary string in 32 KB chunks and hands it to `btoa`; `fromBase64` runs
    `atob` and copies the char codes into a `Uint8Array`. */
module Codec {
  import opened Wrappers
  import opened Bytes
  import Base64

  /** `chunkSize` of `toBase64`: 0x8000 bytes per chunk. */
  const ChunkSize: nat := 0x8000

  function Min(a: int, b: int): (m: int)
  {
    if a <= b then a else b
  }

  /** What `toBase64` returns for `bytes`: the padded base64 text. */
  function EncodeBytes(bytes: seq<byte>): (b64: string)
    ensures Base64.Btoa(Latin1(bytes)) == Some(b64)
  {
    CharCodesOfLatin1(bytes);
    Base64.Encode(bytes)
  }

  /** What `fromBase64` returns for `b64`; `None` when `atob` throws. */
  function DecodeBytes(b64: string): (r: Option<seq<byte>>)
    ensures r.Some? <==> Base64.Atob(b64).Some?
    ensures r.Some? ==> |r.value| == |Base64.Atob(b64).value|
    ensures r.Some? ==> forall i :: 0 <= i < |r.value| ==> r.value[i] == Base64.Atob(b64).value[i] as int
  {
    match Base64.Atob(b64)
    case None => None
    case Some(bin) => Some(CharCodes(bin))
  }

  /** The loops of `toBase64`: one `String.fromCharCode` per byte, gathered
      chunk by chunk. Whatever the chunk size, the i-th code unit of the
      result is the i-th byte. */
  method BinaryString(bytes: seq<byte>, chunkSize: nat) returns (binary: string)
    requires chunkSize > 0
    ensures |binary| == |bytes|
    ensures forall k :: 0 <= k < |bytes| ==> binary[k] as int == bytes[k]
  {
    binary := "";
    var i := 0;
    while i < |bytes|
      invariant |binary| == Min(i, |bytes|)
      invariant forall k :: 0 <= k < |binary| ==> binary[k] as int == bytes[k]
      decreases |bytes| - i
    {
      // `subarray` clamps its end to the length of the array
      var chunk := bytes[i..Min(i + chunkSize, |bytes|)];
      var chunkStr := "";
      var j := 0;
      while j < |chunk|
        invariant 0 <= j <= |chunk|
        invariant |chunkStr| == j
        invariant forall k :: 0 <= k < j ==> chunkStr[k] as int == chunk[k]
      {
        chunkStr := chunkStr + [chunk[j] as char];
        j := j + 1;
      }
      binary := binary + chunkStr;
      i := i + chunkSize;
    }
  }

  /** `toBase64`. Chunking does not change the result, and `fromBase64`
      gives the bytes back. */
  method ToBase64(bytes: seq<byte>) returns (b64: string)
    ensures b64 == EncodeBytes(bytes)
    ensures DecodeBytes(b64) == Some(bytes)
  {
    var binary := BinaryString(bytes, ChunkSize);
    assert binary == Latin1(bytes);
    var encoded := Base64.Btoa(binary);
    b64 := encoded.value;
    DecodeEncodeBytes(bytes);
  }

  /** The copy loop of `fromBase64`: element i of the new array is
      `bin.charCodeAt(i)`. */
  method CopyCharCodes(bin: string) returns (bytes: seq<byte>)
    requires IsBinaryString(bin)
    ensures |bytes| == |bin|
    ensures forall k :: 0 <= k < |bin| ==> bytes[k] == bin[k] as int
  {
    bytes := [];
    var i := 0;
    while i < |bin|
      invariant 0 <= i <= |bin|
      invariant |bytes| == i
      invariant forall k :: 0 <= k < i ==> bytes[k] == bin[k] as int
    {
      bytes := bytes + [bin[i] as int];
      i := i + 1;
    }
  }

  /** `fromBase64`: an array as long as `atob`'s output whose i-th element
      is its i-th char code; `None` when `atob` throws. */
  method FromBase64(b64: string) returns (r: Option<seq<byte>>)
    ensures r == DecodeBytes(b64)
    ensures r.Some? ==> |r.value| == |Base64.Atob(b64).value|
  {
    var decoded := Base64.Atob(b64);
    if decoded.None? {
      return None;
    }
    var bin := decoded.value;
    var bytes := CopyCharCodes(bin);
    assert bytes == CharCodes(bin);
    return Some(bytes);
  }

  /** `fromBase64(toBase64(b))` is `b`, for every byte sequence. */
  lemma DecodeEncodeBytes(bytes: seq<byte>)
    ensures DecodeBytes(EncodeBytes(bytes)) == Some(bytes)
  {
    Base64.AtobBtoa(Latin1(bytes));
    CharCodesOfLatin1(bytes);
  }
}

=== FILE: envelope.dfy ===
/** The encryption envelope of client/lib/crypto.ts: `VaultPayload`,
    `deriveKey`, `encryptText` and `decryptToText`.

    PBKDF2 (RFC 8018 section 5.2), AES-GCM (NIST SP 800-38D), UTF-8 text
    encoding, JSON and number formatting belong to the platform and are not
    modelled; they are passed in as a `Platform` record of functions, and
    only the properties the code relies on are stated about them, as
    predicates that the lemmas below take as hypotheses. Randomness and the
    clock are inputs as well. */
module Envelope {
  import opened Wrappers
  import opened Bytes
  import opened Js
  import Codec
  import Base64

  /** The only schema version. */
  const Version: SafeInt := 1

  /** Salt and IV lengths `encryptText` draws from `getRandomValues`. */
  const SaltLength: nat := 16
  const IvLength: nat := 12

  /** Length of the authentication tag AES-GCM appends (Web Crypto's
      default of 128 bits). */
  const TagLength: nat := 16

  type Salt = s: seq<byte> | |s| == SaltLength witness seq(16, _ => 0)
  type Iv = s: seq<byte> | |s| == IvLength witness seq(12, _ => 0)

  /** The stored record; `salt`, `iv` and `cipher` are base64 text and `ts`
      is milliseconds since the epoch. */
  datatype VaultPayload = VaultPayload(v: SafeInt, salt: string, iv: string, cipher: string, ts: SafeInt)

  /** The parameters `deriveKey` passes to `crypto.subtle.deriveKey`. */
  datatype KdfParams = KdfParams(iterations: nat, hash: string, keyBits: nat)

  const Pbkdf2Params: KdfParams := KdfParams(250000, "SHA-256", 256)

  /** A `CryptoKey`, opaque to the code. */
  datatype Key = Key(material: seq<byte>)

  /** The platform services the code calls; `None` stands for a rejected
      promise or a thrown exception. */
  datatype Platform = Platform(
    utf8Encode: string -> seq<byte>,                          // TextEncoder.encode
    utf8Decode: seq<byte> -> string,                          // TextDecoder.decode
    pbkdf2: (KdfParams, seq<byte>, seq<byte>) -> Option<Key>, // importKey + deriveKey (params, password, salt)
    seal: (Key, seq<byte>, seq<byte>) -> Option<seq<byte>>,   // AES-GCM encrypt (key, iv, plaintext)
    open: (Key, seq<byte>, seq<byte>) -> Option<seq<byte>>,   // AES-GCM decrypt (key, iv, ciphertext)
    stringify: VaultPayload -> string,                        // JSON.stringify of a payload
    parse: string -> Option<JsValue>,                         // JSON.parse
    numberText: real -> string)                               // Number.prototype.toString

  /** U+FEFF, the byte order mark. */
  const Bom: char := 0xFEFF as char

  /** `s` without one leading byte order mark. */
  function WithoutBom(s: string): (r: string)
  {
    if |s| > 0 && s[0] == Bom then s[1..] else s
  }

  /** UTF-8 decoding undoes encoding, except that a `TextDecoder` created
      without `ignoreBOM` (client/lib/crypto.ts:6) drops one leading byte
      order mark. A JavaScript string here is a sequence of scalar values. */
  ghost predicate TextCodecSound(p: Platform)
  {
    forall s :: p.utf8Decode(p.utf8Encode(s)) == WithoutBom(s)
  }

  /** AES-GCM decryption under the key and IV used to encrypt returns the
      plaintext, and the ciphertext carries the tag after the data. */
  ghost predicate CipherSound(p: Platform)
  {
    forall k, iv, m :: p.seal(k, iv, m).Some? ==>
      && |p.seal(k, iv, m).value| == |m| + TagLength
      && p.open(k, iv, p.seal(k, iv, m).value) == Some(m)
  }

  /** The object `JSON.parse` makes of a stringified payload. */
  function PayloadObject(p: VaultPayload): (o: JsValue)
  {
    JObj(map["v" := JNum(p.v as real), "salt" := JStr(p.salt), "iv" := JStr(p.iv),
             "cipher" := JStr(p.cipher), "ts" := JNum(p.ts as real)])
  }

  /** Parsing a stringified payload gives back its fields, and the empty
      string does not parse. The numeric fields are safe integers, which
      JSON text carries exactly. */
  ghost predicate JsonSound(p: Platform)
  {
    && p.parse("") == None
    && forall v :: p.parse(p.stringify(v)) == Some(PayloadObject(v))
  }

  ghost predicate Sound(p: Platform)
  {
    TextCodecSound(p) && CipherSound(p) && JsonSound(p)
  }

  /** The message `encryptText` throws on any failure. */
  const EncryptionFailed: string := "Encryption failed"

  /** The message `decryptToText` throws on any failure. */
  const DecryptionFailed: string := "Invalid passphrase or corrupted data."

  /** `deriveKey`: PBKDF2 over the UTF-8 bytes of the passphrase with the
      fixed parameters. Its own "Key derivation failed" error never reaches
      a caller: both callers replace it with their own message. */
  function DeriveKey(p: Platform, passphrase: string, salt: seq<byte>): (r: Option<Key>)
    ensures r == p.pbkdf2(KdfParams(250000, "SHA-256", 256), p.utf8Encode(passphrase), salt)
  {
    p.pbkdf2(Pbkdf2Params, p.utf8Encode(passphrase), salt)
  }

  /** Key derivation and AES-GCM encryption both succeed, the only two
      steps of `encryptText` that can fail. */
  predicate EncryptSucceeds(p: Platform, plaintext: string, passphrase: string, salt: seq<byte>, iv: seq<byte>)
  {
    && DeriveKey(p, passphrase, salt).Some?
    && p.seal(DeriveKey(p, passphrase, salt).value, iv, p.utf8Encode(plaintext)).Some?
  }

  /** `encryptText(plaintext, passphrase)` with the random salt and IV and the
      clock reading as inputs. It fails only when key derivation or
      encryption fails, and then always with `EncryptionFailed`; on success
      it returns a version-1 payload stamped `now` whose salt and IV decode
      to the bytes drawn. */
  function EncryptText(p: Platform, plaintext: string, passphrase: string, salt: Salt, iv: Iv, now: SafeInt)
    : (r: Result<VaultPayload>)
    ensures r.Err? ==> r.message == EncryptionFailed
    ensures r.Ok? <==> EncryptSucceeds(p, plaintext, passphrase, salt, iv)
    ensures r.Ok? ==> && r.value.v == Version && r.value.ts == now
                      && Codec.DecodeBytes(r.value.salt) == Some(salt)
                      && Codec.DecodeBytes(r.value.iv) == Some(iv)
                      && Codec.DecodeBytes(r.value.cipher)
                         == p.seal(DeriveKey(p, passphrase, salt).value, iv, p.utf8Encode(plaintext))
  {
    match DeriveKey(p, passphrase, salt)
    case None => Err(EncryptionFailed)
    case Some(key) =>
      match p.seal(key, iv, p.utf8Encode(plaintext))
      case None => Err(EncryptionFailed)
      case Some(cipher) =>
        Codec.DecodeEncodeBytes(salt);
        Codec.DecodeEncodeBytes(iv);
        Codec.DecodeEncodeBytes(cipher);
        Ok(VaultPayload(Version, Codec.EncodeBytes(salt), Codec.EncodeBytes(iv), Codec.EncodeBytes(cipher), now))
  }

  /** `fromBase64(payload.<key>)`: the property is converted to a string the
      way `atob` converts its argument, then decoded. A string property is
      decoded as it is; a missing one reads as "undefined", which does not
      decode. */
  function FieldBytes(p: Platform, payload: JsValue, key: string): (r: Option<seq<byte>>)
    requires key in PayloadKeys
    ensures Get(payload, key).JStr? ==> r == Codec.DecodeBytes(Get(payload, key).s)
    ensures Get(payload, key).JUndefined? ==> r == None
  {
    Base64.UndefinedDoesNotDecode();
    Codec.DecodeBytes(DomString(Get(payload, key), p.numberText))
  }

  /** `decryptToText(payload, passphrase)`: decode salt and IV, derive the
      key, decode the ciphertext, decrypt, decode UTF-8. Every failure is
      reported with the one message `DecryptionFailed`. */
  function DecryptToText(p: Platform, payload: JsValue, passphrase: string): (r: Result<string>)
    ensures r.Err? ==> r.message == DecryptionFailed
    // success needs all three fields to decode, the key to derive from the
    // decoded salt, and the cipher to authenticate under that key and IV
    ensures r.Ok? ==>
      && FieldBytes(p, payload, "salt").Some? && FieldBytes(p, payload, "iv").Some?
      && FieldBytes(p, payload, "cipher").Some?
      && DeriveKey(p, passphrase, FieldBytes(p, payload, "salt").value).Some?
      && var plain := p.open(DeriveKey(p, passphrase, FieldBytes(p, payload, "salt").value).value,
                             FieldBytes(p, payload, "iv").value, FieldBytes(p, payload, "cipher").value);
         plain.Some? && r.value == p.utf8Decode(plain.value)
  {
    match FieldBytes(p, payload, "salt")
    case None => Err(DecryptionFailed)
    case Some(salt) =>
      match FieldBytes(p, payload, "iv")
      case None => Err(DecryptionFailed)
      case Some(iv) =>
        match DeriveKey(p, passphrase, salt)
        case None => Err(DecryptionFailed)
        case Some(key) =>
          match FieldBytes(p, payload, "cipher")
          case None => Err(DecryptionFailed)
          case Some(cipher) =>
            match p.open(key, iv, cipher)
            case None => Err(DecryptionFailed)
            case Some(plain) => Ok(p.utf8Decode(plain))
  }

  /** A payload `encryptText` produced is well formed for `loadVault`: version
      1 and non-empty `salt`, `iv` and `cipher`. */
  predicate WellFormed(v: VaultPayload)
  {
    v.v == Version && v.salt != "" && v.iv != "" && v.cipher != ""
  }

  lemma EncryptWellFormed(p: Platform, plaintext: string, passphrase: string, salt: Salt, iv: Iv, now: SafeInt)
    requires CipherSound(p)
    requires EncryptSucceeds(p, plaintext, passphrase, salt, iv)
    ensures WellFormed(EncryptText(p, plaintext, passphrase, salt, iv, now).value)
  {
    var v := EncryptText(p, plaintext, passphrase, salt, iv, now).value;
    var key := DeriveKey(p, passphrase, salt).value;
    var m := p.utf8Encode(plaintext);
    assert |p.seal(key, iv, m).value| == |m| + TagLength;
    assert v.salt == Codec.EncodeBytes(salt) && v.iv == Codec.EncodeBytes(iv);
    assert v.cipher == Codec.EncodeBytes(p.seal(key, iv, m).value);
  }

  /** Decryption reads only `salt`, `iv` and `cipher` of the payload: `v`,
      `ts` and any other property are never consulted. */
  lemma DecryptReadsOnlyCryptoFields(p: Platform, a: JsValue, b: JsValue, passphrase: string)
    requires Get(a, "salt") == Get(b, "salt")
    requires Get(a, "iv") == Get(b, "iv")
    requires Get(a, "cipher") == Get(b, "cipher")
    ensures DecryptToText(p, a, passphrase) == DecryptToText(p, b, passphrase)
  {
  }

  /** The base64 fields of a parsed payload object are its strings. */
  lemma PayloadFields(p: Platform, v: VaultPayload)
    ensures FieldBytes(p, PayloadObject(v), "salt") == Codec.DecodeBytes(v.salt)
    ensures FieldBytes(p, PayloadObject(v), "iv") == Codec.DecodeBytes(v.iv)
    ensures FieldBytes(p, PayloadObject(v), "cipher") == Codec.DecodeBytes(v.cipher)
  {
    var o := PayloadObject(v);
    assert Get(o, "salt") == JStr(v.salt);
    assert Get(o, "iv") == JStr(v.iv);
    assert Get(o, "cipher") == JStr(v.cipher);
  }

  /** Once every step of `decryptToText` is known to succeed, its result is
      the UTF-8 decoding of what AES-GCM returned. */
  lemma DecryptOfSteps(p: Platform, payload: JsValue, passphrase: string,
                       salt: seq<byte>, iv: seq<byte>, cipher: seq<byte>, key: Key, plain: seq<byte>)
    requires FieldBytes(p, payload, "salt") == Some(salt)
    requires FieldBytes(p, payload, "iv") == Some(iv)
    requires FieldBytes(p, payload, "cipher") == Some(cipher)
    requires DeriveKey(p, passphrase, salt) == Some(key)
    requires p.open(key, iv, cipher) == Some(plain)
    ensures DecryptToText(p, payload, passphrase) == Ok(p.utf8Decode(plain))
  {
  }

  /** Round trip: the payload `encryptText(plaintext, passphrase)` returns,
      as it comes back from `JSON.parse`, decrypts with the same passphrase
      to `plaintext`, less a leading byte order mark the decoder drops. */
  lemma DecryptEncrypt(p: Platform, plaintext: string, passphrase: string, salt: Salt, iv: Iv, now: SafeInt)
    requires TextCodecSound(p) && CipherSound(p)
    requires EncryptSucceeds(p, plaintext, passphrase, salt, iv)
    ensures DecryptToText(p, PayloadObject(EncryptText(p, plaintext, passphrase, salt, iv, now).value), passphrase)
         == Ok(WithoutBom(plaintext))
  {
    var v := EncryptText(p, plaintext, passphrase, salt, iv, now).value;
    var key := DeriveKey(p, passphrase, salt).value;
    var m := p.utf8Encode(plaintext);
    var c := p.seal(key, iv, m).value;
    PayloadFields(p, v);
    assert p.open(key, iv, c) == Some(m);
    DecryptOfSteps(p, PayloadObject(v), passphrase, salt, iv, c, key, m);
    assert p.utf8Decode(m) == WithoutBom(plaintext);
  }
}

=== FILE: js.dfy ===
/** The few JavaScript value semantics the vault code leans on: the values
    `JSON.parse` can produce, truthiness, property reads, the string
    conversion `atob` applies to its argument, and `String.prototype.trim`. */
module Js {

  /** A value `JSON.parse` can return, plus `undefined` for a missing
      property. Numbers are kept as reals. `JSON.parse` never yields NaN; the
      infinities it yields for out-of-range literals such as `1e999`, and
      negative zero, are not represented. */
  datatype JsValue =
    | JUndefined
    | JNull
    | JBool(b: bool)
    | JNum(n: real)
    | JStr(s: string)
    | JArr(items: seq<JsValue>)
    | JObj(fields: map<string, JsValue>)

  /** JavaScript truthiness (`if (v)`, `v && ...`): ToBoolean of section
      7.1.2 of ECMA-262, whose falsy values among those represented here are
      `undefined`, `null`, `false`, `0` and the empty string. */
  predicate Truthy(v: JsValue)
    ensures Truthy(v) <==> v !in {JUndefined, JNull, JBool(false), JNum(0.0), JStr("")}
  {
    match v
    case JUndefined => false
    case JNull => false
    case JBool(b) => b
    case JNum(n) => n != 0.0
    case JStr(s) => s != ""
    case JArr(_) => true
    case JObj(_) => true
  }

  /** An integer a JavaScript number holds exactly, so that it survives
      `JSON.stringify` and `JSON.parse`: at most 2^53 - 1 in magnitude.
      `Date.now()` is always one. */
  type SafeInt = x: int | -0x1F_FFFF_FFFF_FFFF <= x <= 0x1F_FFFF_FFFF_FFFF

  /** The property names of a stored payload, the only ones the vault code
      reads. No prototype of a parsed value defines any of them. */
  const PayloadKeys: set<string> := {"v", "salt", "iv", "cipher", "ts"}

  /** `v.key` for a payload property name and a value that is not `null`: an
      own property of a parsed object, otherwise `undefined`. Parsed arrays
      and primitives have no such properties, and neither do the prototypes,
      so inherited names such as `toString` or `length` cannot arise. */
  function Get(v: JsValue, key: string): (r: JsValue)
    requires key in PayloadKeys
    ensures v.JObj? && key in v.fields ==> r == v.fields[key]
    // `null.key` throws a TypeError instead
    ensures v != JNull && !(v.JObj? && key in v.fields) ==> r == JUndefined
  {
    match v
    case JObj(fields) => if key in fields then fields[key] else JUndefined
    case _ => JUndefined
  }

  /** The string conversion a DOMString argument undergoes (`String(v)`).
      Number formatting is left to the runtime: `numberText`. */
  function DomString(v: JsValue, numberText: real -> string): (s: string)
    ensures v.JStr? ==> s == v.s
    ensures v.JUndefined? ==> s == "undefined"
    ensures v.JNull? ==> s == "null"
    ensures v.JBool? ==> s == (if v.b then "true" else "false")
    ensures v.JNum? ==> s == numberText(v.n)
    // an object with an own `toString` property makes `String(v)` throw,
    // because no parsed value is callable
    ensures v.JObj? && "toString" !in v.fields ==> s == "[object Object]"
    decreases v
  {
    match v
    case JUndefined => "undefined"
    case JNull => "null"
    case JBool(b) => if b then "true" else "false"
    case JNum(n) => numberText(n)
    case JStr(s) => s
    case JArr(items) =>
      // Array.prototype.join(","): null and undefined elements become ""
      JoinWithCommas(seq(|items|, i requires 0 <= i < |items| =>
        if items[i].JNull? || items[i].JUndefined? then "" else DomString(items[i], numberText)))
    case JObj(_) => "[object Object]"
  }

  function JoinWithCommas(parts: seq<string>): (s: string)
  {
    if |parts| == 0 then ""
    else if |parts| == 1 then parts[0]
    else parts[0] + "," + JoinWithCommas(parts[1..])
  }

  // ---------------------------------------------------------------------
  // String.prototype.trim

  /** WhiteSpace and LineTerminator code points of ECMAScript: TAB, VT, FF,
      SPACE, NBSP, ZWNBSP, the other space separators, LF, CR, LS and PS. */
  predicate IsJsWhitespace(c: char)
  {
    var u := c as int;
    u == 0x09 || u == 0x0B || u == 0x0C || u == 0x20 || u == 0xA0 || u == 0xFEFF
    || u == 0x1680 || (0x2000 <= u <= 0x200A) || u == 0x202F || u == 0x205F || u == 0x3000
    || u == 0x0A || u == 0x0D || u == 0x2028 || u == 0x2029
  }

  predicate AllWhitespace(s: string)
  {
    forall k :: 0 <= k < |s| ==> IsJsWhitespace(s[k])
  }

  /** `s` without its leading white space: a suffix of `s` that is empty or
      starts with a non-space, all it drops being white space. */
  function TrimStart(s: string): (r: string)
    ensures |r| <= |s| && r == s[|s| - |r|..]
    ensures r == "" || !IsJsWhitespace(r[0])
    ensures forall k :: 0 <= k < |s| - |r| ==> IsJsWhitespace(s[k])
    decreases |s|
  {
    if |s| > 0 && IsJsWhitespace(s[0]) then
      var t := TrimStart(s[1..]);
      assert forall k :: 1 <= k < |s| - |t| ==> s[k] == s[1..][k - 1];
      t
    else s
  }

  /** `s` without its trailing white space: a prefix of `s` that is empty or
      ends with a non-space, all it drops being white space. */
  function TrimEnd(s: string): (r: string)
    ensures |r| <= |s| && r == s[..|r|]
    ensures r == "" || !IsJsWhitespace(r[|r| - 1])
    ensures forall k :: |r| <= k < |s| ==> IsJsWhitespace(s[k])
    decreases |s|
  {
    if |s| > 0 && IsJsWhitespace(s[|s| - 1]) then
      var t := TrimEnd(s[..|s| - 1]);
      assert forall k :: |t| <= k < |s| - 1 ==> s[k] == s[..|s| - 1][k];
      t
    else s
  }

  /** `s.trim()`. */
  function Trim(s: string): (r: string)
  {
    TrimEnd(TrimStart(s))
  }

  /** `!s.trim()`: the trimmed text is empty exactly when every character is
      white space. */
  lemma TrimEmptyIffBlank(s: string)
    ensures Trim(s) == "" <==> AllWhitespace(s)
  {
    var t := TrimStart(s);
    var d := |s| - |t|;
    if Trim(s) == "" {
      // `t` starts with a non-space unless it is empty, and trimming its end
      // removes all of it, so it is empty and all of `s` was dropped
      assert |t| == 0;
    } else {
      var r := Trim(s);
      assert r == t[..|r|];
      assert t[|r| - 1] == s[d + |r| - 1];
    }
  }
}

=== FILE: passphrase.dfy ===
/** `generatePassphrase` of client/lib/crypto.ts. The random words that
    `crypto.getRandomValues` writes into the `Uint32Array` are an input:
    `words(i)` is the word at index i. Each character is picked by
    `word % 71`; since 2^32 is not a multiple of 71 the pick is slightly
    biased towards the first nine characters, so nothing here claims
    uniformity. */
module Passphrase {
  import opened Wrappers
  import opened Bytes

  /** The four groups of the alphabet; concatenated in this order they spell
      the source's 71-character literal. */
  const Upper: string := "ABCDEFGHJKLMNPQRSTUVWXYZ"
  const Lower: string := "abcdefghijkmnopqrstuvwxyz"
  const Digits: string := "23456789"
  const Symbols: string := "!@#$%^&*()-_=+"

  /** The alphabet: letters without I, O and l, digits without 0 and 1, and
      fourteen symbols. */
  const Charset: string := Upper + Lower + Digits + Symbols

  /** The visually ambiguous characters the alphabet leaves out. */
  predicate IsAmbiguous(c: char)
  {
    c == 'I' || c == 'O' || c == 'l' || c == '0' || c == '1'
  }

  predicate Unambiguous(s: string)
  {
    forall k :: 0 <= k < |s| ==> !IsAmbiguous(s[k])
  }

  /** `length` when the caller passes none. */
  const DefaultLength: nat := 20

  /** `getRandomValues` throws a QuotaExceededError when asked for more than
      65536 bytes, that is more than 16384 32-bit words. */
  const MaxWords: nat := 65536 / 4

  lemma CharsetSize()
    ensures |Charset| == 71
  {
  }

  /** Joining two texts without ambiguous characters gives another. */
  lemma UnambiguousAppend(a: string, b: string)
    requires Unambiguous(a) && Unambiguous(b)
    ensures Unambiguous(a + b)
  {
    forall k | 0 <= k < |a + b|
      ensures !IsAmbiguous((a + b)[k])
    {
      if k < |a| {
        assert (a + b)[k] == a[k];
      } else {
        assert (a + b)[k] == b[k - |a|];
      }
    }
  }

  lemma UpperUnambiguous() ensures Unambiguous(Upper) {}
  lemma LowerUnambiguous() ensures Unambiguous(Lower) {}
  lemma DigitsUnambiguous() ensures Unambiguous(Digits) {}
  lemma SymbolsUnambiguous() ensures Unambiguous(Symbols) {}

  /** No character of the alphabet is visually ambiguous. */
  lemma CharsetUnambiguous()
    ensures Unambiguous(Charset)
  {
    UpperUnambiguous();
    LowerUnambiguous();
    DigitsUnambiguous();
    SymbolsUnambiguous();
    UnambiguousAppend(Upper, Lower);
    UnambiguousAppend(Upper + Lower, Digits);
    UnambiguousAppend(Upper + Lower + Digits, Symbols);
  }

  /** `generatePassphrase(length)`: exactly `length` characters, the i-th
      being the alphabet entry the i-th word selects; `None` when the random
      source refuses the request. */
  method GeneratePassphrase(length: nat, words: nat -> uint32) returns (r: Option<string>)
    ensures r.Some? <==> length <= MaxWords
    ensures r.Some? ==> |r.value| == length
    ensures r.Some? ==> forall i :: 0 <= i < length ==> r.value[i] == Charset[words(i) % |Charset|]
    ensures r.Some? ==> forall i :: 0 <= i < length ==> r.value[i] in Charset && !IsAmbiguous(r.value[i])
  {
    if length > MaxWords {
      return None;
    }
    CharsetUnambiguous();
    var out := "";
    var i := 0;
    while i < length
      invariant 0 <= i <= length
      invariant |out| == i
      invariant forall k :: 0 <= k < i ==> out[k] == Charset[words(k) % |Charset|]
    {
      out := out + [Charset[words(i) % |Charset|]];
      i := i + 1;
    }
    return Some(out);
  }

  /** The button's call `generatePassphrase()`: twenty characters. */
  method GenerateDefault(words: nat -> uint32) returns (pass: string)
    ensures |pass| == DefaultLength
    ensures forall i :: 0 <= i < DefaultLength ==> pass[i] == Charset[words(i) % |Charset|]
  {
    var r := GeneratePassphrase(DefaultLength, words);
    pass := r.value;
  }
}

=== FILE: storage.dfy ===
/** `loadVault`, `saveVault` and `clearVault` of client/lib/crypto.ts. The
    `localStorage` entry under `VaultKey` is the slot: `None` when the key is
    absent, `Some(raw)` otherwise. */
module Storage {
  import opened Wrappers
  import opened Js
  import opened Envelope

  /** The `localStorage` key of the slot. */
  const VaultKey: string := "vaultData"

  /** The check `loadVault` applies to the parsed value: truthy, `v === 1`,
      and truthy `cipher`, `iv` and `salt`. `ts` is not looked at, and any
      truthy value passes for the three text fields. Only an object with all
      four properties passes. */
  predicate IsVaultObject(o: JsValue)
    ensures IsVaultObject(o) ==>
      && o.JObj? && "v" in o.fields && o.fields["v"] == JNum(1.0)
      && "cipher" in o.fields && "iv" in o.fields && "salt" in o.fields
  {
    && Truthy(o)
    && Get(o, "v") == JNum(1.0)
    && Truthy(Get(o, "cipher"))
    && Truthy(Get(o, "iv"))
    && Truthy(Get(o, "salt"))
  }

  /** `loadVault()`: the parsed slot when the slot holds a non-empty string
      that parses to a value passing `IsVaultObject`; `null` (`None`)
      otherwise, including when parsing throws. */
  function LoadVault(slot: Option<string>, parse: string -> Option<JsValue>): (r: Option<JsValue>)
    ensures r.Some? <==> (slot.Some? && slot.value != "" && parse(slot.value).Some?
                          && IsVaultObject(parse(slot.value).value))
    ensures r.Some? ==> r == parse(slot.value) && IsVaultObject(r.value)
  {
    match slot
    case None => None
    case Some(raw) =>
      if raw == "" then None
      else
        match parse(raw)
        case None => None
        case Some(parsed) => if IsVaultObject(parsed) then Some(parsed) else None
  }

  /** `saveVault(payload)`: the slot now holds the JSON text, which parses
      back to the payload's fields. */
  function SaveVault(p: Platform, payload: VaultPayload): (r: Option<string>)
    ensures r.Some?
    ensures JsonSound(p) ==> p.parse(r.value) == Some(PayloadObject(payload))
  {
    Some(p.stringify(payload))
  }

  /** `clearVault()`: the key is removed, and nothing parses out of the
      empty slot. */
  function ClearVault(): (r: Option<string>)
    ensures r.None?
    ensures forall parse :: LoadVault(r, parse) == None
  {
    None
  }

  /** The parsed form of a payload passes the check exactly when the payload
      is well formed. */
  lemma PayloadObjectValid(v: VaultPayload)
    ensures IsVaultObject(PayloadObject(v)) <==> WellFormed(v)
  {
    var o := PayloadObject(v);
    assert Get(o, "v") == JNum(v.v as real);
    assert Get(o, "cipher") == JStr(v.cipher);
    assert Get(o, "iv") == JStr(v.iv);
    assert Get(o, "salt") == JStr(v.salt);
  }

  /** After `saveVault(v)`, `loadVault()` returns `v` (as parsed) when `v` is
      well formed, and `null` when it is not. */
  lemma LoadAfterSave(p: Platform, v: VaultPayload)
    requires JsonSound(p)
    ensures WellFormed(v) ==> LoadVault(SaveVault(p, v), p.parse) == Some(PayloadObject(v))
    ensures !WellFormed(v) ==> LoadVault(SaveVault(p, v), p.parse) == None
  {
    PayloadObjectValid(v);
    assert p.parse(p.stringify(v)) == Some(PayloadObject(v));
    assert p.stringify(v) != "";
  }

  /** After `clearVault()`, `loadVault()` returns `null`. */
  lemma LoadAfterClear(parse: string -> Option<JsValue>)
    ensures LoadVault(ClearVault(), parse) == None
  {
  }

  /** Changing `ts`, or adding it, never changes the verdict of `loadVault`. */
  lemma TimestampIgnored(fields: map<string, JsValue>, ts: JsValue)
    ensures IsVaultObject(JObj(fields)) <==> IsVaultObject(JObj(fields["ts" := ts]))
  {
    var a, b := JObj(fields), JObj(fields["ts" := ts]);
    assert Get(a, "v") == Get(b, "v") && Get(a, "cipher") == Get(b, "cipher");
    assert Get(a, "iv") == Get(b, "iv") && Get(a, "salt") == Get(b, "salt");
  }

  /** The check is on truthiness, not on type: an object whose `cipher`,
      `iv` and `salt` are `true`, a number and an array passes it. */
  lemma NonStringFieldsAccepted()
    ensures IsVaultObject(JObj(map["v" := JNum(1.0), "cipher" := JBool(true),
                                   "iv" := JNum(7.0), "salt" := JArr([])]))
  {
    var o := JObj(map["v" := JNum(1.0), "cipher" := JBool(true), "iv" := JNum(7.0), "salt" := JArr([])]);
    assert Get(o, "v") == JNum(1.0);
    assert Get(o, "cipher") == JBool(true);
    assert Get(o, "iv") == JNum(7.0);
    assert Get(o, "salt") == JArr([]);
  }
}

=== FILE: vault.dfy ===
/** The vault-slot state machine of client/pages/Index.tsx: `handleConfirm`
    and `handleClear`, and the initial value of the burn-after-reading flag.
    One call of `handleConfirm` is one transition; its awaits are taken to
    run to completion without another handler in between. */
module Vault {
  import opened Wrappers
  import opened Js
  import opened Envelope
  import opened Storage

  datatype Mode = EncryptMode | DecryptMode

  /** The state `handleConfirm` and `handleClear` touch: the slot in
      `localStorage`, the component's `vault` copy of it, the note text, the
      passphrase dialog's `open` flag and the `busy` flag. */
  datatype UiState = UiState(store: Option<string>, vault: Option<JsValue>, note: string, open: bool, busy: bool)

  /** A transition's new state and the `alert` it raised, if any. */
  datatype Effect = Effect(ui: UiState, alert: Option<string>)

  /** The note text after a successful encryption. */
  const EncryptedBanner: string := "// Encrypted and stored locally."

  /** The alert when decrypting finds no valid vault. */
  const NoVaultAlert: string := "No vault data found."

  /** The alert for every failed encrypt or decrypt. */
  const FailureAlert: string := "Invalid passphrase or corrupted data."

  /** `!note.trim()`: the note is empty or all white space. */
  predicate IsBlank(note: string)
    ensures IsBlank(note) <==> AllWhitespace(note)
  {
    TrimEmptyIffBlank(note);
    Trim(note) == ""
  }

  /** The encrypt branch of `handleConfirm`, once the passphrase is known to
      be non-empty. A blank note stops early. Otherwise the untrimmed note is
      encrypted; a failure reaches the outer `catch`, which alerts and skips
      `setOpen(false)`. */
  function EncryptNote(s: UiState, pass: string, p: Platform, salt: Salt, iv: Iv, now: SafeInt): (e: Effect)
    ensures !e.ui.busy
    // a blank note: nothing but `busy` changes, and no alert
    ensures IsBlank(s.note) ==> e == Effect(s.(busy := false), None)
    // the alert is raised exactly when a non-blank note fails to encrypt, and
    // then nothing but `busy` changes
    ensures e.alert.Some? <==> !IsBlank(s.note) && EncryptText(p, s.note, pass, salt, iv, now).Err?
    ensures e.alert.Some? ==> e == Effect(s.(busy := false), Some(FailureAlert))
    // success: the slot and the `vault` copy hold the payload of the untrimmed
    // note, the note shows the banner and the dialog closes
    ensures e.alert.None? && !IsBlank(s.note) ==>
      var v := EncryptText(p, s.note, pass, salt, iv, now).value;
      && e.ui.store == SaveVault(p, v) && e.ui.vault == Some(PayloadObject(v))
      && e.ui.note == EncryptedBanner && !e.ui.open
    // the slot changes only by a successful encryption
    ensures e.ui.store != s.store ==> e.alert.None? && e.ui.note == EncryptedBanner
  {
    if IsBlank(s.note) then Effect(s.(busy := false), None)
    else
      match EncryptText(p, s.note, pass, salt, iv, now)
      case Err(_) => Effect(s.(busy := false), Some(FailureAlert))
      case Ok(payload) =>
        Effect(s.(store := SaveVault(p, payload), vault := Some(PayloadObject(payload)),
                  note := EncryptedBanner, open := false, busy := false), None)
  }

  /** The decrypt branch of `handleConfirm`, once the passphrase is known to
      be non-empty: load the vault, decrypt it, show the plaintext and, when
      `burn` is truthy, clear the slot. */
  function DecryptNote(s: UiState, pass: string, burn: JsValue, p: Platform): (e: Effect)
    // the dialog closes and `busy` is cleared on every path
    ensures !e.ui.open && !e.ui.busy
    // no valid vault: the "No vault data found." alert
    ensures LoadVault(s.store, p.parse).None? ==> e.alert == Some(NoVaultAlert)
    // a loaded vault that fails to decrypt gets the other alert
    ensures LoadVault(s.store, p.parse).Some? && e.alert.Some? ==> e.alert == Some(FailureAlert)
    // every failure leaves the slot, the `vault` copy and the note alone
    ensures e.alert.Some? ==> e.ui.store == s.store && e.ui.vault == s.vault && e.ui.note == s.note
    // success exactly when a vault is loaded and decrypts
    ensures e.alert.None? <==> (LoadVault(s.store, p.parse).Some?
                                && DecryptToText(p, LoadVault(s.store, p.parse).value, pass).Ok?)
    // success shows the plaintext; burning empties the slot and the copy,
    // otherwise both are kept
    ensures e.alert.None? ==>
      && e.ui.note == DecryptToText(p, LoadVault(s.store, p.parse).value, pass).value
      && (Truthy(burn) ==> e.ui.store == None && e.ui.vault == None)
      && (!Truthy(burn) ==> e.ui.store == s.store && e.ui.vault == s.vault)
    // the slot changes only by burning it after a successful decryption
    ensures e.ui.store != s.store ==> e.alert.None? && Truthy(burn) && e.ui.store == None
  {
    match LoadVault(s.store, p.parse)
    case None => Effect(s.(open := false, busy := false), Some(NoVaultAlert))
    case Some(payload) =>
      match DecryptToText(p, payload, pass)
      case Err(_) => Effect(s.(open := false, busy := false), Some(FailureAlert))
      case Ok(plain) =>
        if Truthy(burn) then
          Effect(s.(store := ClearVault(), vault := None, note := plain, open := false, busy := false), None)
        else
          Effect(s.(note := plain, open := false, busy := false), None)
  }

  /** `handleConfirm` in mode `mode` with passphrase `pass` and burn flag
      `burn`, on the platform `p`, with the salt and IV the random source
      would give and the clock reading `now`. */
  function Confirm(s: UiState, mode: Mode, pass: string, burn: JsValue,
                   p: Platform, salt: Salt, iv: Iv, now: SafeInt): (e: Effect)
    // an empty passphrase does nothing at all
    ensures pass == "" ==> e == Effect(s, None)
    // otherwise the busy flag is cleared whichever way the call ends
    ensures pass != "" ==> !e.ui.busy
    // every failure path leaves the slot, the `vault` copy and the note alone
    ensures e.alert.Some? ==> e.ui.store == s.store && e.ui.vault == s.vault && e.ui.note == s.note
    // the slot changes only by a successful encryption or by a successful
    // decryption with `burn` set, which empties it
    ensures e.ui.store != s.store ==>
      && e.alert.None?
      && ((mode == EncryptMode && e.ui.note == EncryptedBanner)
          || (mode == DecryptMode && Truthy(burn) && e.ui.store == None))
  {
    if pass == "" then Effect(s, None)
    else
      match mode
      case EncryptMode => EncryptNote(s, pass, p, salt, iv, now)
      case DecryptMode => DecryptNote(s, pass, burn, p)
  }

  /** `handleClear`: the slot and the `vault` copy become empty from any
      state; nothing else changes. */
  function Clear(s: UiState): (r: UiState)
    ensures r.store == None && r.vault == None
    ensures r.note == s.note && r.open == s.open && r.busy == s.busy
  {
    s.(store := ClearVault(), vault := None)
  }

  /** The initial `burn` state: the parsed `burnAfterReading` preference, or
      `true` when it is absent, empty or does not parse. Only a stored
      preference that parses to a falsy value turns burning off. */
  function InitialBurn(stored: Option<string>, parse: string -> Option<JsValue>): (b: JsValue)
    ensures (stored.None? || stored == Some("") || parse(stored.value).None?) ==> b == JBool(true)
    ensures !Truthy(b) ==> stored.Some? && parse(stored.value) == Some(b)
    // a stored preference that parses is used as it is, so burning stays off
    // once it has been turned off
    ensures stored.Some? && stored.value != "" && parse(stored.value).Some? ==> b == parse(stored.value).value
  {
    match stored
    case None => JBool(true)
    case Some(raw) =>
      if raw == "" then JBool(true)
      else
        match parse(raw)
        case None => JBool(true)
        case Some(v) => v
  }

  /** After `handleClear`, `loadVault()` finds nothing. */
  lemma LoadAfterClearing(s: UiState, parse: string -> Option<JsValue>)
    ensures LoadVault(Clear(s).store, parse) == None
  {
    LoadAfterClear(parse);
  }

  /** A successful encryption leaves in the slot a vault that `loadVault()`
      accepts and returns field for field. */
  lemma EncryptStoresVault(s: UiState, pass: string, burn: JsValue, p: Platform, salt: Salt, iv: Iv, now: SafeInt)
    requires CipherSound(p) && JsonSound(p)
    requires pass != "" && !IsBlank(s.note)
    requires EncryptSucceeds(p, s.note, pass, salt, iv)
    ensures var e := Confirm(s, EncryptMode, pass, burn, p, salt, iv, now);
      && LoadVault(e.ui.store, p.parse) == Some(PayloadObject(EncryptText(p, s.note, pass, salt, iv, now).value))
      && e.ui.note == EncryptedBanner && !e.ui.open && e.alert.None?
  {
    var v := EncryptText(p, s.note, pass, salt, iv, now).value;
    EncryptWellFormed(p, s.note, pass, salt, iv, now);
    LoadAfterSave(p, v);
  }

  /** Burn after reading, end to end: encrypting a note and then decrypting
      with the same passphrase restores the note, less a leading byte order
      mark, after which the slot is empty if `burn` is truthy and still holds
      the same vault otherwise. */
  lemma EncryptThenDecrypt(s: UiState, pass: string, burn: JsValue, p: Platform, salt: Salt, iv: Iv, now: SafeInt,
                           salt2: Salt, iv2: Iv, now2: SafeInt)
    requires Sound(p)
    requires pass != "" && !IsBlank(s.note)
    requires EncryptSucceeds(p, s.note, pass, salt, iv)
    ensures var e1 := Confirm(s, EncryptMode, pass, burn, p, salt, iv, now);
      var e2 := Confirm(e1.ui, DecryptMode, pass, burn, p, salt2, iv2, now2);
      && e2.alert.None?
      && e2.ui.note == WithoutBom(s.note)
      && (Truthy(burn) ==> e2.ui.store == None && LoadVault(e2.ui.store, p.parse) == None)
      && (!Truthy(burn) ==> e2.ui.store == e1.ui.store)
  {
    var v := EncryptText(p, s.note, pass, salt, iv, now).value;
    var e1 := Confirm(s, EncryptMode, pass, burn, p, salt, iv, now);
    EncryptStoresVault(s, pass, burn, p, salt, iv, now);
    DecryptEncrypt(p, s.note, pass, salt, iv, now);
    var e2 := Confirm(e1.ui, DecryptMode, pass, burn, p, salt2, iv2, now2);
    assert e2 == DecryptNote(e1.ui, pass, burn, p);
    assert LoadVault(e1.ui.store, p.parse) == Some(PayloadObject(v));
    assert DecryptToText(p, PayloadObject(v), pass) == Ok(WithoutBom(s.note));
  }

  /** The byte order mark in practice: U+FEFF is white space to `trim`, but
      the note U+FEFF "hi" is not blank, so it is encrypted, and it comes
      back as "hi". */
  lemma LeadingBomDropped(s: UiState, pass: string, burn: JsValue, p: Platform, salt: Salt, iv: Iv, now: SafeInt,
                          salt2: Salt, iv2: Iv, now2: SafeInt)
    requires Sound(p) && pass != ""
    requires s.note == [Bom, 'h', 'i']
    requires EncryptSucceeds(p, s.note, pass, salt, iv)
    ensures IsJsWhitespace(s.note[0]) && !IsBlank(s.note)
    ensures var e1 := Confirm(s, EncryptMode, pass, burn, p, salt, iv, now);
      && e1.ui.note == EncryptedBanner
      && Confirm(e1.ui, DecryptMode, pass, burn, p, salt2, iv2, now2).ui.note == "hi"
  {
    assert !IsJsWhitespace(s.note[1]);
    EncryptStoresVault(s, pass, burn, p, salt, iv, now);
    EncryptThenDecrypt(s, pass, burn, p, salt, iv, now, salt2, iv2, now2);
  }
}

=== FILE: wrappers.dfy ===
/** Failure-carrying results shared by the whole model. */
module Wrappers {

  /** A value that may be absent: `null`, a thrown parse error, an empty slot. */
  datatype Option<+T> = None | Some(value: T)

  /** The outcome of an operation that either returns a value or throws an
      `Error` whose message is `message`. */
  datatype Result<+T> = Ok(value: T) | Err(message: string)
}
